=== FILE: README.md ===
# Lane runner: rules engines and segment controller

This project models the game logic of the lane runner in Dafny. A player picks one of three
lanes before each checkpoint. An obstacle may block some lanes. A safe pick scores, and a hit
either costs points or ends the run.

The model has three parts.

- `BrowserRules` (`browser_rules.dfy`) is the browser rules engine, class `Game` of
  `public/js/logic.js`.
  - For each segment it draws the obstacle lanes: one lane before checkpoint 10, then
    `min(2, lanes - 1)` distinct lanes.
  - It resolves the chosen lane as safe or hit. A safe lane earns `checkpointPrizePence` in
    integer pence. A hit ends the game and deducts nothing.
  - The class invariant `Game.Valid` ties `prizePence`, `currentCheckpoint`, `over`,
    `awaitingChoice` and `pendingObstacleLanes` to the history of `CheckpointResult`s.
- `CliRules` (`cli_rules.dfy`) is the command-line rules engine, class `Game` of `src/game.js`.
  It uses a different rule set:
  - a checkpoint has at most one obstacle lane, with probability `obstacleProbability`;
  - a hit costs `penaltyPerHit` and play goes on;
  - only reaching `maxCheckpoints` ends the game.
- `SegmentController` (`controller.dfy`) is the phase machine of `public/js/main.js`, without its
  rendering.
  - The phases are idle, await-choice, pre-open, doors-opening, doors-sliding, running, result
    and ended.
  - The controller advances on a clamped frame tick and reacts to lane input.
  - A `choiceResolved` latch makes it ask the engine to resolve each segment at most once.
  - A difficulty ramp shortens the run and door phases as checkpoints advance.
  - The render-side geometry is replaced by the threshold conditions it implies: the obstacle
    front reaches the player (`FrontReachesPlayer`), the pass-through completes
    (`PassComplete`) and the doors arrive (`DoorsArrived`).
- `Common` (`common.dfy`) holds `Option`, the engines' errors (`Result`/`EngineError`) and
  `LaneOf`, which is `Math.floor(r * lanes)`.

Thrown errors become `Err(InvalidLane)` or `Err(GameAlreadyOver)`. A `null` return becomes
`None`. Durations are exact `real`s.

Randomness is passed in as an argument:
- Browser `Math.random` values are a `draws: seq<real>` argument with values in [0, 1). The
  rejection loop of `generateObstacleLanes` is specified by the recursive function
  `BrowserRules.Sample`.
- The seeded generator of the command-line game is a stream `rng: nat -> real`, plus a counter
  `rngPos` of the values already used.

## Model

| member | source | states |
|---|---|---|
| Common.LaneOf | public/js/logic.js:32 | `Math.floor(r * lanes)` of a value in [0, 1) is a lane in [0, lanes) |
| BrowserRules.SampleIsDistinctInRange | public/js/logic.js:29-35 | the rejection loop only extends what it holds; the lanes it collects are distinct and in [0, lanes); it never collects more than `count` |
| BrowserRules.HistoryOkAppend | public/js/logic.js:61-71 | appending the next result, numbered with the history's length and carrying the running total, to a history without a hit keeps it well formed, and adds the result's delta to the prize |
| BrowserRules.SumDeltasIsPrizePerSafe | public/js/logic.js:51-55 | the sum of the prize deltas of a history is `checkpointPrizePence` times the number of safe results |
| BrowserRules.AllSafeCount | public/js/logic.js:50-55 | a history of safe results counts every result as safe |
| BrowserRules.SafeRunPrize | public/js/logic.js:53-55 | N cleared checkpoints without a hit are worth exactly N × `checkpointPrizePence` |
| BrowserRules.Game.constructor | public/js/logic.js:17-25 | a fresh game: checkpoint 0, prize 0, empty history, not over, nothing pending, not awaiting a choice |
| BrowserRules.Game.GenerateObstacleLanes | public/js/logic.js:27-36 | the loop returns what `Sample` collects from the draws: exactly 1 lane before checkpoint 10, `min(2, lanes - 1)` lanes from checkpoint 10 on, all distinct and in [0, lanes) |
| BrowserRules.Game.StartSegment | public/js/logic.js:38-43 | on a finished game it returns null and changes nothing; otherwise it stores the drawn lanes as pending, sets `awaitingChoice`, returns those lanes and leaves score, checkpoint and history alone |
| BrowserRules.Game.ResolveChoice | public/js/logic.js:45-76 | null and no change when nothing is pending or the game is over (checked before the lane); `Invalid lane` and no change for a lane outside [0, lanes); otherwise exactly one result is appended: its index is the old checkpoint, safe iff the lane is not pending, prize + `checkpointPrizePence` if safe, delta 0 if hit, `ended == !safe`, total equal to the new prize; the checkpoint advances by 1, the pending lanes are cleared, and `over` holds iff hit or `maxCheckpoints` reached; `over` never reverts, and nothing is appended after it |
| BrowserRules.Game.ChooseLane | public/js/logic.js:79-82 | start a segment, then resolve it: null on a finished game; `Invalid lane` leaves the new segment pending and nothing else changed; otherwise one result for the lane is appended against the freshly drawn lanes, with the old checkpoint as index, safe iff the lane is not drawn, prize + `checkpointPrizePence` if safe; the checkpoint advances, nothing stays pending, and `over` holds iff hit or `maxCheckpoints` reached |
| BrowserRules.Game.IsOver | public/js/logic.js:84 | the game is over iff the last result was a hit or `maxCheckpoints` results exist |
| BrowserRules.Game.GetSummary | public/js/logic.js:85 | a copy of the game's fields: the same lanes, checkpoint limit, prize, prize per checkpoint and history; the prize is `checkpointPrizePence` × the number of safe results and the checkpoint is the history's length |
| CliRules.ObstacleLaneFrom | src/game.js:42-48 | an obstacle exists iff the first value is below `obstacleProbability`, and then its lane lies in [0, lanes) |
| CliRules.HistoryOkEntries | src/game.js:61-75 | every entry of a well-formed history is numbered by its position, safe iff no obstacle or another lane, scored +reward or −penalty, and carries the running total |
| CliRules.HistoryOkAppend | src/game.js:63-74 | appending the next result, numbered with the history's length and carrying the running total, keeps the history well formed |
| CliRules.SumDeltasIsRewardMinusPenalty | src/game.js:63-64 | the score is `rewardPerSafe·#safe − penaltyPerHit·#hit`, and #safe + #hit is the number of results |
| CliRules.Game.constructor | src/game.js:30-37 | a fresh game: score 0, checkpoint 0, empty history, not over, no value of the stream used |
| CliRules.Game.NextObstacle | src/game.js:42-48 | the obstacle the next stream values give is absent or a lane in [0, lanes) |
| CliRules.Game.GenerateObstacleLane | src/game.js:42-48 | yields `NextObstacle()` and uses one stream value when there is no obstacle and two when there is one |
| CliRules.Game.Record | src/game.js:61-78 | one result is appended for the lane against the given obstacle: its index is the old checkpoint, safe iff no obstacle or another lane, score + reward if safe and − penalty if hit, total equal to the new score; the checkpoint advances by 1, `over` holds iff `maxCheckpoints` is reached, and the history stays well formed |
| CliRules.Game.ChooseLane | src/game.js:55-80 | `Game already over` and no change on a finished game; `Invalid lane` and no change (stream untouched) for a bad lane; otherwise one stream value is used when there is no obstacle and two when there is one, and exactly one result is appended: its index is the old checkpoint, safe iff no obstacle or another lane, score ± reward or penalty, total equal to the new score; the checkpoint advances by 1, and `over` holds iff `maxCheckpoints` is reached (a hit does not end the game) |
| CliRules.Game.IsOver | src/game.js:76-84 | over iff at least one result and `maxCheckpoints` results exist; with `maxCheckpoints ≥ 1` a finished game has exactly `maxCheckpoints` results |
| CliRules.Game.GetSummary | src/game.js:86-93 | reports the history, `maxCheckpoints`, the game's own score and checkpoint, with `checkpoints` equal to the number of results and a score of `rewardPerSafe·#safe − penaltyPerHit·#hit` |
| SegmentController.ClampDt | public/js/main.js:765-767 | the tick is the raw tick capped at 0.5 s |
| SegmentController.Progress | public/js/main.js:744 | `min(cp / max, 1)` lies in [0, 1] |
| SegmentController.RunDurationAt | public/js/main.js:746 | `3.5·(1 − 0.4·progress)` lies in [2.1, 3.5] |
| SegmentController.DoorOpenDurationAt | public/js/main.js:747 | the door opening time shrinks by at most 30% |
| SegmentController.DoorSlideDurationAt | public/js/main.js:748 | the door sliding time shrinks by at most 30% |
| SegmentController.RampIsNonIncreasing | public/js/main.js:742-751 | progress never decreases as the checkpoint advances, and the run, door-opening and door-sliding times never increase |
| SegmentController.FrontReachesPlayerIff | public/js/main.js:590-596 | the obstacle's front face reaches the player exactly when the approach fraction is at least 113/114 |
| SegmentController.PassCompleteIff | public/js/main.js:601-604 | after the run time, `passT >= 1` holds exactly when `runDuration + passDuration` has elapsed (also for a zero pass time) |
| SegmentController.RunStep | public/js/main.js:586-605 | a running update hits early iff the lane is obstructed and the elapsed time lies in [runDuration·113/114, runDuration]; it resolves after the pass iff the elapsed time is past the run and at least `runDuration + passDuration` |
| SegmentController.DoorsAlwaysArrivedAsWritten | public/js/main.js:556-567 | the arrival test as written holds at every instant of the sliding phase |
| SegmentController.DoorsArrivedAsWrittenTooEarly | public/js/main.js:556-567 | at the first instant of sliding, with the base durations, the test as written already holds while the doors are more than 9 units short of the target |
| SegmentController.DoorsArriveAfterSlide | public/js/main.js:552-576 | with the corrected test, the doors arrive exactly once the slide time has elapsed, less the tolerance of 1/2380 of the door travel time |
| SegmentController.DigitLane | public/js/main.js:416 | keys 1, 2 and 3 select lanes 0, 1 and 2 |
| SegmentController.Controller.constructor | public/js/main.js:16-48 | the initial controller: idle, no game, player in lane 1, base durations |
| SegmentController.Controller.SetState | public/js/main.js:158-161 | sets the phase and resets `stateTime` to 0 |
| SegmentController.Controller.SetPlayerLane | public/js/main.js:423-432 | a lane outside 0..2 is ignored, so the player's lane stays in 0..2 |
| SegmentController.Controller.SelectLane | public/js/main.js:440-447 | acts only in await-choice: moves the player (if the lane is valid), marks `chosen` and enters pre-open with the clock at 0; otherwise nothing changes |
| SegmentController.Controller.OnLaneSelect | public/js/main.js:449 | outside await-choice nothing changes; in await-choice it selects the lane: the player moves to it if it is in 0..2, `chosen` is set and pre-open is entered with the clock at 0; only the player's lane, `chosen`, the phase and its clock can change |
| SegmentController.Controller.OnKey | public/js/main.js:411-418 | keys are ignored without a game, on a finished game or outside await-choice; arrows move the player one lane within 0..2 and leave the phase and its clock alone; digit keys 1 to 3 commit to lane 0 to 2 and enter pre-open; only the player's lane, `chosen`, the phase and its clock can change, so the durations, the latch and the pass time stay |
| SegmentController.Controller.ApplyDifficultyRamp | public/js/main.js:742-751 | with a game, the run, door-opening and door-sliding times are those of the ramp at the game's progress and the door travel time is their sum; without a game nothing changes |
| SegmentController.Controller.FinishGame | public/js/main.js:482-487 | enters ended with the clock at 0 |
| SegmentController.Controller.BeginDoorsPhase | public/js/main.js:458-480 | without a game, nothing changes; on a finished game it enters ended and changes nothing else; otherwise the pending lanes are those `Sample` draws for the checkpoint, the durations are the ramp's at the game's progress, `chosen` and `choiceResolved` are reset, await-choice is entered with the clock at 0, and history and checkpoint stay; the player's lane and the pass time are never touched |
| SegmentController.Controller.StartNextSegment | public/js/main.js:461-478 | on a game that is not over: the pending lanes are those `Sample` draws, the durations are the ramp's, the latch is reset and await-choice is entered, with history and checkpoint unchanged |
| SegmentController.Controller.OnStart | public/js/main.js:451-456 | the start button makes a fresh default game (checkpoint 0, prize 0, empty history) and begins its first segment: one obstacle lane, `floor(3·r)` of the first draw; the base run and door times (progress 0); await-choice with nothing chosen or resolved; the player's lane and the pass time are kept; it acts only from idle, since the start button is shown only before the first game |
| SegmentController.Controller.ResolveRun | public/js/main.js:489-505 | guarded by the latch (never set while running, so the guard only mirrors the source; at most once follows from `Valid`'s count of results against started segments), it resolves the segment: one result for the player's lane is appended to the history, safe iff the lane is not a pending obstacle lane; a safe result enters result, a hit enters ended |
| SegmentController.Controller.ProceedAfterResult | public/js/main.js:507-513 | from result, on a finished game it enters ended and leaves the game alone; otherwise the next segment begins: pending lanes drawn by `Sample`, ramped durations, await-choice with the latch reset; the history is unchanged |
| SegmentController.Controller.UpdatePreOpen | public/js/main.js:515-520 | pre-open moves to doors-opening once `stateTime >= revealDelay` |
| SegmentController.Controller.UpdateDoorsOpening | public/js/main.js:525-550 | doors-opening moves to doors-sliding once `stateTime >= doorOpenDuration` |
| SegmentController.Controller.UpdateDoorsSliding | public/js/main.js:552-584 | doors-sliding moves to running once the doors arrive (corrected test) |
| SegmentController.Controller.UpdateRunning | public/js/main.js:586-606 | with no event nothing changes; an early hit sets the pass time to 0, a completed pass keeps it; either way exactly one result is appended for the player's lane, safe iff that lane is not an obstacle lane, and the controller enters result if safe and ended if hit (so an early hit always ends the game) |
| SegmentController.Controller.UpdateResult | public/js/main.js:753-758 | nothing changes outside result or before `resultPause`; then a finished game enters ended, otherwise the next segment begins with pending lanes drawn by `Sample`, ramped durations and await-choice; the history is unchanged |
| SegmentController.Controller.UpdatePhase | public/js/main.js:769-779 | one frame moves the phase clock to `t` and runs at most the current phase's update: one step along the phase sequence or none; idle, await-choice and ended change neither phase, pass time nor game; pre-open and the door phases change neither pass time nor game; result keeps the pass time and the history, and before the pause also the game and the run, door and travel times; a run with no event keeps the game; a run keeps the pass time unless it hits early, which sets it to 0; the run, door and travel times change only when leaving result; each phase's exit condition holds exactly when it moves; a resolving run appends one result for the player's lane, safe iff not an obstacle lane, and enters result or ended accordingly; leaving result into a new segment begins it as `BeginDoorsPhase` does |
| SegmentController.Controller.Tick | public/js/main.js:760-779 | a frame clamps the tick, advances the phase clock, and moves at most one step; the clock restarts on a move; idle, await-choice and ended change neither phase, pass time nor game; the door phases change neither pass time nor game; result keeps the pass time and history, and before the pause also the game and the run, door and travel times; a run with no event keeps the game; only an early hit changes the pass time, to 0; the run, door and travel times change only when leaving result; each timed phase exits exactly when its threshold is met on the advanced clock; a resolving run appends one result for the player's lane, safe iff not an obstacle lane, entering result if safe and ended if hit; leaving result into a new segment begins it with drawn lanes and ramped durations |

## Left out

- Rendering (Three.js scene, meshes, door angles, easing, opacity, sweets, sky, floating texts,
  particles), audio and the `ui` overlay calls: these are presentation work and foreign calls.
- Coins (public/js/main.js:323-351, 618-646) are left out. They use random bucket counts and a
  floating-point distance test. Line 638 also credits `game.prizePence` behind the engine's
  back, so the prize properties of `BrowserRules` hold for the engine alone.
- The wall clock and render loop (`performance.now`, `requestAnimationFrame`) are left out.
  `Controller.Tick` takes the raw tick as a parameter and requires it not to be negative, as a
  monotonic clock gives.
- `Math.random` and `createRng` are passed in as values, as described above. src/rng.js is not
  part of this model.
- `BrowserRules.Game.GenerateObstacleLanes`: in the source the rejection loop ends with
  probability 1. The model instead requires draws that hold enough distinct candidates
  (`DrawsSuffice`).
- `SegmentController.Controller.UpdateRunning` assumes the obstacle mesh is present, as it always
  is once doors-sliding has ended. With the mesh absent, the source skips resolution in that
  frame.
- `SegmentController.Controller.UpdateDoorsSliding`, `SegmentController.Controller.UpdatePhase`
  and `SegmentController.Controller.Tick` use the corrected arrival test (see Findings) rather
  than the one written.
- The early-hit window lasts `runDuration/114` s, and a long tick can step over it. The model
  keeps this behaviour as the source has it: the hit is then resolved after the pass delay,
  still as a hit.
- `getSummary` of public/js/logic.js copies every field, including `config`. The model copies
  the configuration values it uses.
- The default configuration of the command-line game (src/game.js:20-27) is not modelled:
  `CliRules.Game`'s constructor takes every configuration value as a parameter.
- Restarting reloads the page (public/js/ui.js:39-41), which builds a new controller with the
  initial values of public/js/main.js:20-25. The model has no page reload: `OnStart` requires
  idle, because the start button is shown only before the first game (public/js/main.js:8,
  public/js/ui.js:26-29 and 49-53). An early hit sets `passDuration` to 0
  (public/js/main.js:598) but always ends the game, so no later run of that page sees it.
- public/js/ui.js, src/index.js and serve.mjs are not part of this model (DOM wiring, console
  prompt loop, HTTP server).

## Findings

| source | as written | input that shows it | evidently intended | confidence | as-written member | corrected member |
|---|---|---|---|---|---|---|
| public/js/main.js:567 | the doors count as arrived when `z <= doorTargetZ + 0.01`, but they move from `doorBaseZ = -25` up to `doorTargetZ = -1.2` and never pass it, so the test holds on the first tick of doors-sliding | base durations, first tick of doors-sliding: z ≈ -10.72, and the phase ends at once | the doors arrive when they reach the target, `z >= doorTargetZ - 0.01`, i.e. when the slide time has elapsed | high (proved about the model; not executed) | SegmentController.DoorsArrivedAsWrittenTooEarly | SegmentController.DoorsArriveAfterSlide |

=== FILE: browser_rules.dfy ===
/**
 * The browser rules engine of the lane runner (public/js/logic.js): obstacle lanes are drawn for
 * each segment, a lane choice is resolved against them, a cleared checkpoint earns a fixed prize in
 * integer pence, and a hit ends the game without any deduction.
 */
module BrowserRules {
  import opened Common

  const DefaultLanes := 3
  const DefaultMaxCheckpoints := 20
  const DefaultCheckpointPrizePence := 25
  /** From this checkpoint on, two lanes (at most lanes - 1) are obstructed instead of one. */
  const RampCheckpoint := 10

  /** The immutable record of one resolved segment. */
  datatype CheckpointResult = CheckpointResult(
    index: int,
    chosenLane: int,
    safe: bool,
    obstacleLanes: seq<int>,
    prizeDeltaPence: int,
    totalPrizePence: int,
    ended: bool)

  /** What `getSummary` copies out of the game. */
  datatype Summary = Summary(
    lanes: int,
    maxCheckpoints: int,
    checkpointPrizePence: int,
    currentCheckpoint: int,
    prizePence: int,
    history: seq<CheckpointResult>,
    over: bool,
    pendingObstacleLanes: Option<seq<int>>,
    awaitingChoice: bool)

  /** How many lanes are obstructed at a checkpoint. */
  function ObstacleCount(checkpoint: int, lanes: int): int
  {
    if checkpoint >= RampCheckpoint then Min(2, lanes - 1) else 1
  }

  predicate Distinct(s: seq<int>)
  {
    forall i, j :: 0 <= i < j < |s| ==> s[i] != s[j]
  }

  predicate InRange(s: seq<int>, lanes: int)
  {
    forall i :: 0 <= i < |s| ==> 0 <= s[i] < lanes
  }

  predicate AllUnitDraws(draws: seq<real>)
  {
    forall i :: 0 <= i < |draws| ==> IsUnitDraw(draws[i])
  }

  /** A well-formed obstacle set for checkpoint `checkpoint`. */
  predicate ObstacleLanesOk(obstacleLanes: seq<int>, checkpoint: int, lanes: int)
  {
    |obstacleLanes| == ObstacleCount(checkpoint, lanes) && Distinct(obstacleLanes) && InRange(obstacleLanes, lanes)
  }

  /**
   * The lanes the rejection loop of generateObstacleLanes collects from the successive
   * `Math.random` values `draws`, having already collected `acc`: each draw picks a candidate
   * lane, which is kept unless it was picked before, until `count` lanes are held.
   */
  function Sample(draws: seq<real>, lanes: int, count: int, acc: seq<int>): seq<int>
    requires AllUnitDraws(draws) && lanes >= 1
    decreases |draws|
  {
    if |acc| >= count || draws == [] then acc
    else
      var cand := LaneOf(draws[0], lanes);
      Sample(draws[1..], lanes, count, if cand in acc then acc else acc + [cand])
  }

  /** The rejection loop only ever extends what it holds, with distinct lanes in range, and stops at `count`. */
  lemma {:induction false} SampleIsDistinctInRange(draws: seq<real>, lanes: int, count: int, acc: seq<int>)
    requires AllUnitDraws(draws) && lanes >= 1
    requires Distinct(acc) && InRange(acc, lanes) && |acc| <= count
    ensures var r := Sample(draws, lanes, count, acc);
      Distinct(r) && InRange(r, lanes) && acc <= r && |r| <= count
    decreases |draws|
  {
    if |acc| >= count || draws == [] {
    } else {
      var cand := LaneOf(draws[0], lanes);
      var next := if cand in acc then acc else acc + [cand];
      SampleIsDistinctInRange(draws[1..], lanes, count, next);
    }
  }

  /** One result of a well-formed history: its index, its lane, and safety, prize and ending decided by the rules. */
  predicate ResultOk(r: CheckpointResult, i: int, lanes: int, checkpointPrizePence: int)
  {
    && r.index == i
    && 0 <= r.chosenLane < lanes
    && ObstacleLanesOk(r.obstacleLanes, i, lanes)
    && (r.safe <==> r.chosenLane !in r.obstacleLanes)
    && r.prizeDeltaPence == (if r.safe then checkpointPrizePence else 0)
    && r.ended == !r.safe
  }

  /** The sum of the prize deltas of `h`. */
  function SumDeltas(h: seq<CheckpointResult>): int
  {
    if |h| == 0 then 0 else SumDeltas(h[..|h| - 1]) + h[|h| - 1].prizeDeltaPence
  }

  function SafeCount(h: seq<CheckpointResult>): nat
  {
    if |h| == 0 then 0 else SafeCount(h[..|h| - 1]) + (if h[|h| - 1].safe then 1 else 0)
  }

  /**
   * A history the engine can have produced: results are numbered from 0, each total is the sum
   * of the deltas so far, and only the last result can be a hit (nothing is appended after a hit).
   */
  predicate HistoryOk(h: seq<CheckpointResult>, lanes: int, checkpointPrizePence: int)
  {
    && (forall i :: 0 <= i < |h| ==>
          ResultOk(h[i], i, lanes, checkpointPrizePence) && h[i].totalPrizePence == SumDeltas(h[..i + 1]))
    && (forall i :: 0 <= i < |h| - 1 ==> h[i].safe)
  }

  predicate EndedByHit(h: seq<CheckpointResult>)
  {
    |h| > 0 && !h[|h| - 1].safe
  }

  /** Appending the result of the next checkpoint to a history that has no hit keeps it well formed. */
  lemma {:induction false} HistoryOkAppend(h: seq<CheckpointResult>, r: CheckpointResult, lanes: int, checkpointPrizePence: int)
    requires HistoryOk(h, lanes, checkpointPrizePence) && !EndedByHit(h)
    requires ResultOk(r, |h|, lanes, checkpointPrizePence)
    requires r.totalPrizePence == SumDeltas(h) + r.prizeDeltaPence
    ensures HistoryOk(h + [r], lanes, checkpointPrizePence)
    ensures SumDeltas(h + [r]) == SumDeltas(h) + r.prizeDeltaPence
  {
    var h' := h + [r];
    assert h'[..|h|] == h;
    assert h'[..|h| + 1] == h';
    assert SumDeltas(h') == SumDeltas(h) + r.prizeDeltaPence;
    forall i | 0 <= i < |h'|
      ensures ResultOk(h'[i], i, lanes, checkpointPrizePence) && h'[i].totalPrizePence == SumDeltas(h'[..i + 1])
    {
      if i < |h| {
        assert h'[i] == h[i] && h'[..i + 1] == h[..i + 1];
      }
    }
    forall i | 0 <= i < |h'| - 1
      ensures h'[i].safe
    {
      assert h'[i] == h[i];
    }
  }

  /** The prize is the checkpoint prize times the number of cleared checkpoints. */
  lemma {:induction false} SumDeltasIsPrizePerSafe(h: seq<CheckpointResult>, lanes: int, checkpointPrizePence: int)
    requires forall i :: 0 <= i < |h| ==> ResultOk(h[i], i, lanes, checkpointPrizePence)
    ensures SumDeltas(h) == checkpointPrizePence * SafeCount(h)
    decreases |h|
  {
    if |h| > 0 {
      var p := h[..|h| - 1];
      var last := h[|h| - 1];
      assert forall i :: 0 <= i < |p| ==> p[i] == h[i];
      SumDeltasIsPrizePerSafe(p, lanes, checkpointPrizePence);
      assert ResultOk(last, |h| - 1, lanes, checkpointPrizePence);
      if last.safe {
        assert checkpointPrizePence * SafeCount(h) == checkpointPrizePence * SafeCount(p) + checkpointPrizePence;
      }
    }
  }

  lemma {:induction false} AllSafeCount(h: seq<CheckpointResult>)
    requires forall i :: 0 <= i < |h| ==> h[i].safe
    ensures SafeCount(h) == |h|
    decreases |h|
  {
    if |h| > 0 {
      AllSafeCount(h[..|h| - 1]);
    }
  }

  /** N cleared checkpoints without a hit are worth exactly N checkpoint prizes. */
  lemma SafeRunPrize(h: seq<CheckpointResult>, lanes: int, checkpointPrizePence: int)
    requires HistoryOk(h, lanes, checkpointPrizePence)
    requires forall i :: 0 <= i < |h| ==> h[i].safe
    ensures SumDeltas(h) == checkpointPrizePence * |h|
  {
    SumDeltasIsPrizePerSafe(h, lanes, checkpointPrizePence);
    AllSafeCount(h);
  }

  /** A game instance; `new Game()` in the browser uses the Default* configuration. */
  class Game {
    const lanes: int
    const maxCheckpoints: int
    const checkpointPrizePence: int

    var currentCheckpoint: int
    var prizePence: int
    var history: seq<CheckpointResult>
    var over: bool
    var pendingObstacleLanes: Option<seq<int>>
    var awaitingChoice: bool

    /** Whether the game is over, as the fields imply: a hit, or `maxCheckpoints` results. */
    ghost predicate OverByRules()
      reads this
    {
      EndedByHit(history) || (|history| >= 1 && |history| >= maxCheckpoints)
    }

    ghost predicate Valid()
      reads this
    {
      && lanes >= 1
      && currentCheckpoint == |history|
      && HistoryOk(history, lanes, checkpointPrizePence)
      && prizePence == SumDeltas(history)
      && (awaitingChoice <==> pendingObstacleLanes.Some?)
      && (awaitingChoice ==> !over)
      && (pendingObstacleLanes.Some? ==> ObstacleLanesOk(pendingObstacleLanes.value, currentCheckpoint, lanes))
      && (over <==> OverByRules())
    }

    constructor (lanes: int, maxCheckpoints: int, checkpointPrizePence: int)
      requires lanes >= 1
      ensures Valid()
      ensures this.lanes == lanes && this.maxCheckpoints == maxCheckpoints
      ensures this.checkpointPrizePence == checkpointPrizePence
      ensures currentCheckpoint == 0 && prizePence == 0 && history == []
      ensures !over && pendingObstacleLanes == None && !awaitingChoice
    {
      this.lanes := lanes;
      this.maxCheckpoints := maxCheckpoints;
      this.checkpointPrizePence := checkpointPrizePence;
      currentCheckpoint := 0;
      prizePence := 0;
      history := [];
      over := false;
      pendingObstacleLanes := None;
      awaitingChoice := false;
    }

    /** The random values are enough for the rejection loop to collect all lanes it needs. */
    predicate DrawsSuffice(draws: seq<real>)
      reads this
    {
      && lanes >= 1
      && AllUnitDraws(draws)
      && var count := ObstacleCount(currentCheckpoint, lanes);
         |Sample(draws, lanes, count, [])| == count
    }

    method GenerateObstacleLanes(draws: seq<real>) returns (obstacleLanes: seq<int>)
      requires DrawsSuffice(draws)
      ensures obstacleLanes == Sample(draws, lanes, ObstacleCount(currentCheckpoint, lanes), [])
      ensures ObstacleLanesOk(obstacleLanes, currentCheckpoint, lanes)
    {
      obstacleLanes := [];
      var count := if currentCheckpoint >= RampCheckpoint then Min(2, lanes - 1) else 1;
      var i := 0;
      while |obstacleLanes| < count
        invariant 0 <= i <= |draws|
        invariant Sample(draws[i..], lanes, count, obstacleLanes) == Sample(draws, lanes, count, [])
        invariant Distinct(obstacleLanes) && InRange(obstacleLanes, lanes) && |obstacleLanes| <= count
        decreases |draws| - i
      {
        assert i < |draws|;
        var cand := LaneOf(draws[i], lanes);
        assert draws[i..][1..] == draws[i + 1..];
        if cand !in obstacleLanes {
          obstacleLanes := obstacleLanes + [cand];
        }
        i := i + 1;
      }
      assert draws[i..] == [] ==> Sample(draws[i..], lanes, count, obstacleLanes) == obstacleLanes;
    }

    method StartSegment(draws: seq<real>) returns (r: Option<seq<int>>)
      requires Valid()
      requires !over ==> DrawsSuffice(draws)
      modifies this
      ensures Valid()
      ensures old(over) ==> r == None && unchanged(this)
      ensures !old(over) ==>
        && r == Some(Sample(draws, lanes, ObstacleCount(currentCheckpoint, lanes), []))
        && pendingObstacleLanes == r && awaitingChoice
        && currentCheckpoint == old(currentCheckpoint) && prizePence == old(prizePence)
        && history == old(history) && over == old(over)
    {
      if over {
        return None;
      }
      var obstacleLanes := GenerateObstacleLanes(draws);
      pendingObstacleLanes := Some(obstacleLanes);
      awaitingChoice := true;
      r := pendingObstacleLanes;
    }

    method ResolveChoice(chosenLane: int) returns (out: Result<Option<CheckpointResult>>)
      requires Valid()
      modifies this
      ensures Valid()
      ensures old(over) ==> over && history == old(history)
      ensures !old(awaitingChoice) || old(over) ==> out == Ok(None) && unchanged(this)
      ensures old(awaitingChoice) && !old(over) && !(0 <= chosenLane < lanes) ==>
        out == Err(InvalidLane) && unchanged(this)
      ensures old(awaitingChoice) && !old(over) && 0 <= chosenLane < lanes ==>
        && out.Ok? && out.value.Some?
        && var res := out.value.value;
           && history == old(history) + [res]
           && res.index == old(currentCheckpoint) && res.chosenLane == chosenLane
           && res.obstacleLanes == old(pendingObstacleLanes).value
           && (res.safe <==> chosenLane !in old(pendingObstacleLanes).value)
           && prizePence == old(prizePence) + res.prizeDeltaPence
           && res.prizeDeltaPence == (if res.safe then checkpointPrizePence else 0)
           && res.totalPrizePence == prizePence
           && res.ended == !res.safe
           && currentCheckpoint == old(currentCheckpoint) + 1
           && !awaitingChoice && pendingObstacleLanes == None
           && over == (!res.safe || currentCheckpoint >= maxCheckpoints)
    {
      if !awaitingChoice || over {
        return Ok(None);
      }
      if chosenLane < 0 || chosenLane >= lanes {
        return Err(InvalidLane);
      }
      var obstacleLanes := match pendingObstacleLanes case Some(ls) => ls case None => [];
      var safe := chosenLane !in obstacleLanes;
      var prizeDeltaPence := 0;
      var ended := false;
      if safe {
        prizeDeltaPence := checkpointPrizePence;
        prizePence := prizePence + prizeDeltaPence;
      } else {
        over := true;
        ended := true;
      }
      var result := CheckpointResult(currentCheckpoint, chosenLane, safe, obstacleLanes,
                                     prizeDeltaPence, prizePence, ended);
      HistoryOkAppend(history, result, lanes, checkpointPrizePence);
      history := history + [result];
      currentCheckpoint := currentCheckpoint + 1;
      awaitingChoice := false;
      pendingObstacleLanes := None;
      if !over && currentCheckpoint >= maxCheckpoints {
        over := true;
      }
      out := Ok(Some(result));
    }

    /** The legacy one-step API: start a segment, then resolve it with `lane`. */
    method ChooseLane(lane: int, draws: seq<real>) returns (out: Result<Option<CheckpointResult>>)
      requires Valid()
      requires !over ==> DrawsSuffice(draws)
      modifies this
      ensures Valid()
      ensures old(over) ==> out == Ok(None) && unchanged(this)
      ensures !old(over) && !(0 <= lane < lanes) ==>
        && out == Err(InvalidLane)
        && awaitingChoice
        && pendingObstacleLanes == Some(Sample(draws, lanes, ObstacleCount(old(currentCheckpoint), lanes), []))
        && history == old(history) && currentCheckpoint == old(currentCheckpoint)
        && prizePence == old(prizePence) && !over
      ensures !old(over) && 0 <= lane < lanes ==>
        && out.Ok? && out.value.Some?
        && var res := out.value.value;
           && history == old(history) + [res]
           && res.index == old(currentCheckpoint) && res.chosenLane == lane
           && res.obstacleLanes == Sample(draws, lanes, ObstacleCount(old(currentCheckpoint), lanes), [])
           && (res.safe <==> lane !in res.obstacleLanes)
           && prizePence == old(prizePence) + (if res.safe then checkpointPrizePence else 0)
           && res.totalPrizePence == prizePence
           && currentCheckpoint == old(currentCheckpoint) + 1
           && !awaitingChoice && pendingObstacleLanes == None
           && over == (!res.safe || currentCheckpoint >= maxCheckpoints)
    {
      var _ := StartSegment(draws);
      out := ResolveChoice(lane);
    }

    function IsOver(): (b: bool)
      reads this
      requires Valid()
      ensures b <==> EndedByHit(history) || (|history| >= 1 && |history| >= maxCheckpoints)
    {
      over
    }

    function GetSummary(): (s: Summary)
      reads this
      requires Valid()
      ensures s.history == history && s.over == over
      ensures s.lanes == lanes && s.maxCheckpoints == maxCheckpoints
      ensures s.prizePence == prizePence && s.checkpointPrizePence == checkpointPrizePence
      ensures s.currentCheckpoint == |s.history|
      ensures s.prizePence == s.checkpointPrizePence * SafeCount(s.history)
      ensures s.pendingObstacleLanes == pendingObstacleLanes && s.awaitingChoice == awaitingChoice
    {
      SumDeltasIsPrizePerSafe(history, lanes, checkpointPrizePence);
      Summary(lanes, maxCheckpoints, checkpointPrizePence, currentCheckpoint, prizePence,
              history, over, pendingObstacleLanes, awaitingChoice)
    }
  }
}

=== FILE: cli_rules.dfy ===
/**
 * The command-line rules engine (src/game.js), a rule set that differs from the browser one: each
 * choice may or may not meet a single obstacle lane, a hit costs `penaltyPerHit` and play goes on,
 * and only reaching `maxCheckpoints` ends the game.
 */
module CliRules {
  import opened Common

  /** The record of one checkpoint; `obstacleLane` is `None` when the checkpoint had no obstacle. */
  datatype CheckpointResult = CheckpointResult(
    index: int,
    chosenLane: int,
    safe: bool,
    obstacleLane: Option<int>,
    scoreDelta: int,
    totalScore: int)

  /** What `getSummary` reports. */
  datatype Summary = Summary(
    score: int,
    checkpoints: int,
    maxCheckpoints: int,
    history: seq<CheckpointResult>)

  /** Every value of the seeded random stream lies in [0, 1). */
  ghost predicate RngOk(rng: nat -> real)
  {
    forall n: nat :: IsUnitDraw(rng(n))
  }

  /**
   * The obstacle of one checkpoint, from the stream's next value `first` and, only when an
   * obstacle is drawn, the value after it, `second`.
   */
  function ObstacleLaneFrom(first: real, second: real, obstacleProbability: real, lanes: int): (o: Option<int>)
    requires IsUnitDraw(second) && lanes >= 1
    ensures o.Some? <==> first < obstacleProbability
    ensures o.Some? ==> 0 <= o.value < lanes
  {
    if first < obstacleProbability then Some(LaneOf(second, lanes)) else None
  }

  /** Safety of a choice: there is no obstacle, or it is in another lane. */
  predicate SafeChoice(lane: int, obstacleLane: Option<int>)
  {
    obstacleLane.None? || lane != obstacleLane.value
  }

  predicate ResultOk(r: CheckpointResult, i: int, lanes: int, rewardPerSafe: int, penaltyPerHit: int)
  {
    && r.index == i
    && 0 <= r.chosenLane < lanes
    && (r.obstacleLane.Some? ==> 0 <= r.obstacleLane.value < lanes)
    && (r.safe <==> SafeChoice(r.chosenLane, r.obstacleLane))
    && r.scoreDelta == (if r.safe then rewardPerSafe else -penaltyPerHit)
  }

  function SumDeltas(h: seq<CheckpointResult>): int
  {
    if |h| == 0 then 0 else SumDeltas(h[..|h| - 1]) + h[|h| - 1].scoreDelta
  }

  function SafeCount(h: seq<CheckpointResult>): nat
  {
    if |h| == 0 then 0 else SafeCount(h[..|h| - 1]) + (if h[|h| - 1].safe then 1 else 0)
  }

  function HitCount(h: seq<CheckpointResult>): nat
  {
    if |h| == 0 then 0 else HitCount(h[..|h| - 1]) + (if h[|h| - 1].safe then 0 else 1)
  }

  /** Results are numbered from 0 and each total is the sum of the deltas so far. */
  predicate HistoryOk(h: seq<CheckpointResult>, lanes: int, rewardPerSafe: int, penaltyPerHit: int)
    decreases |h|
  {
    |h| == 0 ||
      (&& HistoryOk(h[..|h| - 1], lanes, rewardPerSafe, penaltyPerHit)
       && ResultOk(h[|h| - 1], |h| - 1, lanes, rewardPerSafe, penaltyPerHit)
       && h[|h| - 1].totalScore == SumDeltas(h))
  }

  /** Every entry of a well-formed history is a well-formed result at its own index. */
  lemma {:induction false} HistoryOkEntries(h: seq<CheckpointResult>, lanes: int, rewardPerSafe: int, penaltyPerHit: int)
    requires HistoryOk(h, lanes, rewardPerSafe, penaltyPerHit)
    ensures forall i :: 0 <= i < |h| ==>
      ResultOk(h[i], i, lanes, rewardPerSafe, penaltyPerHit) && h[i].totalScore == SumDeltas(h[..i + 1])
    decreases |h|
  {
    if |h| > 0 {
      var p := h[..|h| - 1];
      HistoryOkEntries(p, lanes, rewardPerSafe, penaltyPerHit);
      forall i | 0 <= i < |h|
        ensures ResultOk(h[i], i, lanes, rewardPerSafe, penaltyPerHit) && h[i].totalScore == SumDeltas(h[..i + 1])
      {
        if i < |p| {
          assert h[i] == p[i] && h[..i + 1] == p[..i + 1];
        } else {
          assert h[..i + 1] == h;
        }
      }
    }
  }

  lemma {:induction false} HistoryOkAppend(h: seq<CheckpointResult>, r: CheckpointResult, lanes: int, rewardPerSafe: int, penaltyPerHit: int)
    requires HistoryOk(h, lanes, rewardPerSafe, penaltyPerHit)
    requires ResultOk(r, |h|, lanes, rewardPerSafe, penaltyPerHit)
    requires r.totalScore == SumDeltas(h) + r.scoreDelta
    ensures HistoryOk(h + [r], lanes, rewardPerSafe, penaltyPerHit)
    ensures SumDeltas(h + [r]) == SumDeltas(h) + r.scoreDelta
  {
    assert (h + [r])[..|h|] == h;
  }

  /** Every safe checkpoint adds the reward and every hit takes off the penalty. */
  lemma {:induction false} SumDeltasIsRewardMinusPenalty(h: seq<CheckpointResult>, lanes: int, rewardPerSafe: int, penaltyPerHit: int)
    requires HistoryOk(h, lanes, rewardPerSafe, penaltyPerHit)
    ensures SumDeltas(h) == rewardPerSafe * SafeCount(h) - penaltyPerHit * HitCount(h)
    ensures SafeCount(h) + HitCount(h) == |h|
    decreases |h|
  {
    if |h| > 0 {
      var p := h[..|h| - 1];
      var last := h[|h| - 1];
      SumDeltasIsRewardMinusPenalty(p, lanes, rewardPerSafe, penaltyPerHit);
      assert SumDeltas(h) == SumDeltas(p) + last.scoreDelta;
      if last.safe {
        assert SafeCount(h) == SafeCount(p) + 1 && HitCount(h) == HitCount(p);
        assert last.scoreDelta == rewardPerSafe;
        assert rewardPerSafe * (SafeCount(p) + 1) == rewardPerSafe * SafeCount(p) + rewardPerSafe;
      } else {
        assert SafeCount(h) == SafeCount(p) && HitCount(h) == HitCount(p) + 1;
        assert last.scoreDelta == -penaltyPerHit;
        assert penaltyPerHit * (HitCount(p) + 1) == penaltyPerHit * HitCount(p) + penaltyPerHit;
      }
    }
  }

  /** A game instance; `rng` is the stream of values of the seeded generator the game is built with. */
  class Game {
    const lanes: int
    const maxCheckpoints: int
    const obstacleProbability: real
    const rewardPerSafe: int
    const penaltyPerHit: int
    const rng: nat -> real

    /** How many values of `rng` the game has consumed. */
    var rngPos: nat
    var currentCheckpoint: int
    var score: int
    var history: seq<CheckpointResult>
    var over: bool

    ghost predicate Valid()
      reads this
    {
      && lanes >= 1
      && RngOk(rng)
      && currentCheckpoint == |history|
      && HistoryOk(history, lanes, rewardPerSafe, penaltyPerHit)
      && score == SumDeltas(history)
      && (over <==> |history| >= 1 && |history| >= maxCheckpoints)
      && (|history| <= maxCheckpoints || |history| <= 1)
    }

    constructor (lanes: int, maxCheckpoints: int, obstacleProbability: real,
                 rewardPerSafe: int, penaltyPerHit: int, rng: nat -> real)
      requires lanes >= 1 && RngOk(rng)
      ensures Valid()
      ensures this.lanes == lanes && this.maxCheckpoints == maxCheckpoints
      ensures this.obstacleProbability == obstacleProbability
      ensures this.rewardPerSafe == rewardPerSafe && this.penaltyPerHit == penaltyPerHit
      ensures this.rng == rng && rngPos == 0
      ensures currentCheckpoint == 0 && score == 0 && history == [] && !over
    {
      this.lanes := lanes;
      this.maxCheckpoints := maxCheckpoints;
      this.obstacleProbability := obstacleProbability;
      this.rewardPerSafe := rewardPerSafe;
      this.penaltyPerHit := penaltyPerHit;
      this.rng := rng;
      rngPos := 0;
      currentCheckpoint := 0;
      score := 0;
      history := [];
      over := false;
    }

    /** The obstacle the next one or two stream values give. */
    function NextObstacle(): (o: Option<int>)
      reads this
      requires Valid()
      ensures o.Some? ==> 0 <= o.value < lanes
    {
      ObstacleLaneFrom(rng(rngPos), rng(rngPos + 1), obstacleProbability, lanes)
    }

    method GenerateObstacleLane() returns (o: Option<int>)
      requires Valid()
      modifies this`rngPos
      ensures Valid()
      ensures o == old(NextObstacle())
      ensures rngPos == old(rngPos) + (if o.Some? then 2 else 1)
    {
      var first := rng(rngPos);
      rngPos := rngPos + 1;
      if first < obstacleProbability {
        var second := rng(rngPos);
        rngPos := rngPos + 1;
        return Some(LaneOf(second, lanes));
      }
      return None;
    }

    /** Scores a choice against the drawn obstacle and appends its result (src/game.js:61-78). */
    method Record(lane: int, obstacleLane: Option<int>) returns (r: CheckpointResult)
      requires Valid() && !over && 0 <= lane < lanes
      requires obstacleLane.Some? ==> 0 <= obstacleLane.value < lanes
      modifies this`score, this`history, this`currentCheckpoint, this`over
      ensures Valid()
      ensures history == old(history) + [r]
      ensures r.index == old(currentCheckpoint) && r.chosenLane == lane && r.obstacleLane == obstacleLane
      ensures r.safe <==> SafeChoice(lane, obstacleLane)
      ensures score == old(score) + (if r.safe then rewardPerSafe else -penaltyPerHit)
      ensures r.scoreDelta == score - old(score) && r.totalScore == score
      ensures currentCheckpoint == old(currentCheckpoint) + 1
      ensures over == (currentCheckpoint >= maxCheckpoints)
    {
      var safe := obstacleLane.None? || lane != obstacleLane.value;
      var scoreDelta := if safe then rewardPerSafe else -penaltyPerHit;
      r := CheckpointResult(currentCheckpoint, lane, safe, obstacleLane, scoreDelta, score + scoreDelta);
      HistoryOkAppend(history, r, lanes, rewardPerSafe, penaltyPerHit);
      score := score + scoreDelta;
      history := history + [r];
      currentCheckpoint := currentCheckpoint + 1;
      if currentCheckpoint >= maxCheckpoints {
        over := true;
      }
    }

    method ChooseLane(lane: int) returns (out: Result<CheckpointResult>)
      requires Valid()
      modifies this
      ensures Valid()
      ensures old(over) ==> out == Err(GameAlreadyOver) && unchanged(this)
      ensures out.Ok? ==> rngPos == old(rngPos) + (if out.value.obstacleLane.Some? then 2 else 1)
      ensures !old(over) && !(0 <= lane < lanes) ==> out == Err(InvalidLane) && unchanged(this)
      ensures !old(over) && 0 <= lane < lanes ==>
        && out.Ok?
        && var r := out.value;
           && history == old(history) + [r]
           && r.index == old(currentCheckpoint) && r.chosenLane == lane
           && r.obstacleLane == old(NextObstacle())
           && (r.safe <==> SafeChoice(lane, r.obstacleLane))
           && score == old(score) + (if r.safe then rewardPerSafe else -penaltyPerHit)
           && r.scoreDelta == score - old(score) && r.totalScore == score
           && currentCheckpoint == old(currentCheckpoint) + 1
           && over == (currentCheckpoint >= maxCheckpoints)
    {
      if over {
        return Err(GameAlreadyOver);
      }
      if lane < 0 || lane >= lanes {
        return Err(InvalidLane);
      }
      var obstacleLane := GenerateObstacleLane();
      var result := Record(lane, obstacleLane);
      out := Ok(result);
    }

    function IsOver(): (b: bool)
      reads this
      requires Valid()
      ensures b <==> |history| >= 1 && |history| >= maxCheckpoints
      ensures b && maxCheckpoints >= 1 ==> |history| == maxCheckpoints
    {
      over
    }

    function GetSummary(): (s: Summary)
      reads this
      requires Valid()
      ensures s.history == history && s.maxCheckpoints == maxCheckpoints
      ensures s.score == score && s.checkpoints == currentCheckpoint
      ensures s.checkpoints == |s.history|
      ensures s.score == rewardPerSafe * SafeCount(s.history) - penaltyPerHit * HitCount(s.history)
    {
      SumDeltasIsRewardMinusPenalty(history, lanes, rewardPerSafe, penaltyPerHit);
      Summary(score, currentCheckpoint, maxCheckpoints, history)
    }
  }
}

=== FILE: common.dfy ===
/** Values shared by both rules engines and the segment controller. */
module Common {

  datatype Option<T> = None | Some(value: T)

  /** The exceptions the rules engines throw. */
  datatype EngineError =
    | InvalidLane      // 'Invalid lane'
    | GameAlreadyOver  // 'Game already over'

  /** A call that either returns a value or throws one of the engine's errors. */
  datatype Result<T> = Ok(value: T) | Err(error: EngineError)

  function Min(a: int, b: int): (m: int)
    ensures m <= a && m <= b && (m == a || m == b)
  {
    if a <= b then a else b
  }

  function MinReal(a: real, b: real): (m: real)
    ensures m <= a && m <= b && (m == a || m == b)
  {
    if a <= b then a else b
  }

  /** A value drawn from a uniform source on [0, 1). */
  predicate IsUnitDraw(r: real)
  {
    0.0 <= r < 1.0
  }

  /** `Math.floor(r * lanes)`: the lane picked by one draw. */
  function LaneOf(r: real, lanes: int): (lane: int)
    requires IsUnitDraw(r) && lanes >= 1
    ensures 0 <= lane < lanes
  {
    var x := r * lanes as real;
    MulLess(r, 1.0, lanes as real);
    x.Floor
  }

  lemma MulLess(a: real, b: real, c: real)
    requires a < b && c > 0.0
    ensures a * c < b * c
  {
    assert (b - a) * c > 0.0;
  }
}

=== FILE: controller.dfy ===
/**
 * The segment controller of the browser game (public/js/main.js without its rendering): a phase
 * machine driven by frame ticks and lane input that asks the browser rules engine to start each
 * segment and to resolve it at most once.
 */
module SegmentController {
  import opened Common
  import BrowserRules

  datatype Phase = Idle | AwaitChoice | PreOpen | DoorsOpening | DoorsSliding | Running | Result | Ended

  // Timing configuration (seconds).
  const RevealDelay := 0.5
  const BaseDoorOpenDuration := 0.9
  const BaseDoorSlideDuration := 0.6
  const BaseRunDuration := 3.5
  const BasePassDuration := 1.5
  const ResultPause := 1.0
  /** The longest frame tick the controller accepts. */
  const MaxTick := 0.5

  // Distances along the track.
  const ObstacleStartZ := -55.0
  const ObstacleEndZ := 2.0
  const ObstacleHalfDepth := 0.5
  const DoorBaseZ := -25.0
  const DoorTargetZ := ObstacleEndZ - 3.2
  const DoorArrivalTolerance := 0.01

  /** The player stands in one of the three lanes of `laneX`. */
  const PlayerLanes := 3

  /** Fraction of the obstacle approach at which its front face reaches the player. */
  const EarlyHitFraction := 113.0 / 114.0

  /** The frame tick after clamping. */
  function ClampDt(dt: real): (c: real)
    ensures c == MinReal(dt, MaxTick)
  {
    if dt > MaxTick then MaxTick else dt
  }

  lemma MulLe(a: real, b: real, c: real)
    requires a <= b && c > 0.0
    ensures a * c <= b * c
  {
    if a < b {
      MulLess(a, b, c);
    }
  }

  /** Comparing a quotient by a positive divisor is comparing the dividend with the scaled bound. */
  lemma DivCompare(x: real, d: real, k: real)
    requires d > 0.0
    ensures x / d >= k <==> x >= k * d
    ensures x / d <= k <==> x <= k * d
  {
    var q := x / d;
    assert q * d == x;
    if q >= k {
      MulLe(k, q, d);
    } else {
      MulLess(q, k, d);
    }
    if q <= k {
      MulLe(q, k, d);
    } else {
      MulLess(k, q, d);
    }
  }

  // ---- Difficulty ramp ----

  /** How far the game is through its checkpoints, capped at 1. */
  function Progress(checkpoint: int, maxCheckpoints: int): (p: real)
    requires checkpoint >= 0 && maxCheckpoints > 0
    ensures 0.0 <= p <= 1.0
  {
    MinReal(checkpoint as real / maxCheckpoints as real, 1.0)
  }

  function RunDurationAt(progress: real): (d: real)
    requires 0.0 <= progress <= 1.0
    ensures 2.1 <= d <= BaseRunDuration
  {
    3.5 * (1.0 - 0.4 * progress)
  }

  function DoorOpenDurationAt(progress: real): (d: real)
    requires 0.0 <= progress <= 1.0
    ensures 0.7 * BaseDoorOpenDuration <= d <= BaseDoorOpenDuration
  {
    0.9 * (1.0 - 0.3 * progress)
  }

  function DoorSlideDurationAt(progress: real): (d: real)
    requires 0.0 <= progress <= 1.0
    ensures 0.7 * BaseDoorSlideDuration <= d <= BaseDoorSlideDuration
  {
    0.6 * (1.0 - 0.3 * progress)
  }

  /** As the checkpoint advances, the run and both door phases never get longer. */
  lemma RampIsNonIncreasing(cp1: int, cp2: int, maxCheckpoints: int)
    requires 0 <= cp1 <= cp2 && maxCheckpoints > 0
    ensures Progress(cp1, maxCheckpoints) <= Progress(cp2, maxCheckpoints)
    ensures RunDurationAt(Progress(cp2, maxCheckpoints)) <= RunDurationAt(Progress(cp1, maxCheckpoints))
    ensures DoorOpenDurationAt(Progress(cp2, maxCheckpoints)) <= DoorOpenDurationAt(Progress(cp1, maxCheckpoints))
    ensures DoorSlideDurationAt(Progress(cp2, maxCheckpoints)) <= DoorSlideDurationAt(Progress(cp1, maxCheckpoints))
  {
    var m := maxCheckpoints as real;
    var q1, q2 := cp1 as real / m, cp2 as real / m;
    if cp1 < cp2 {
      MulLess(cp1 as real, cp2 as real, 1.0 / m);
      assert q1 == cp1 as real * (1.0 / m);
      assert q2 == cp2 as real * (1.0 / m);
    }
    assert q1 <= q2;
    assert Progress(cp1, maxCheckpoints) == MinReal(q1, 1.0);
    assert Progress(cp2, maxCheckpoints) == MinReal(q2, 1.0);
  }

  // ---- Threshold conditions of the running phase ----

  /** The obstacle's centre at approach fraction `t`. */
  function ObstacleZ(t: real): real
  {
    ObstacleStartZ + (ObstacleEndZ - ObstacleStartZ) * MinReal(t, 1.0)
  }

  /** The obstacle's front face has reached the player. */
  predicate FrontReachesPlayer(t: real)
  {
    ObstacleZ(t) + ObstacleHalfDepth >= ObstacleEndZ
  }

  lemma FrontReachesPlayerIff(t: real)
    ensures FrontReachesPlayer(t) <==> t >= EarlyHitFraction
  {
  }

  /** `(stateTime - runDuration) / passDuration >= 1`, where a zero divisor gives an infinite quotient. */
  predicate PassComplete(stateTime: real, runDuration: real, passDuration: real)
  {
    if passDuration == 0.0 then stateTime > runDuration
    else (stateTime - runDuration) / passDuration >= 1.0
  }

  lemma PassCompleteIff(stateTime: real, runDuration: real, passDuration: real)
    requires passDuration >= 0.0
    ensures stateTime > runDuration ==>
      (PassComplete(stateTime, runDuration, passDuration) <==> stateTime >= runDuration + passDuration)
  {
    if passDuration > 0.0 {
      DivCompare(stateTime - runDuration, passDuration, 1.0);
    }
  }

  datatype RunEvent = NoEvent | EarlyHit | PassedThrough

  /**
   * What one update of the running phase decides, given the elapsed time and whether the
   * player's lane is obstructed.
   */
  function RunStep(stateTime: real, runDuration: real, passDuration: real, obstructed: bool): (e: RunEvent)
    requires runDuration > 0.0 && passDuration >= 0.0
    ensures e == EarlyHit <==> obstructed && runDuration * EarlyHitFraction <= stateTime <= runDuration
    ensures e == PassedThrough <==> stateTime > runDuration && stateTime >= runDuration + passDuration
  {
    var t := stateTime / runDuration;
    DivCompare(stateTime, runDuration, 1.0);
    DivCompare(stateTime, runDuration, EarlyHitFraction);
    FrontReachesPlayerIff(t);
    PassCompleteIff(stateTime, runDuration, passDuration);
    if t <= 1.0 then
      (if FrontReachesPlayer(t) && obstructed then EarlyHit else NoEvent)
    else if PassComplete(stateTime, runDuration, passDuration) then PassedThrough
    else NoEvent
  }

  // ---- Threshold condition of the doors-sliding phase ----

  /** The doors' position at travel fraction `progress`. */
  function DoorZ(progress: real): real
  {
    DoorBaseZ + (DoorTargetZ - DoorBaseZ) * progress
  }

  /** Travel fraction of the doors `stateTime` seconds into the sliding phase. */
  function SlideProgress(stateTime: real, doorOpenDuration: real, totalDoorTravelDuration: real): (p: real)
    requires totalDoorTravelDuration > 0.0
    ensures p <= 1.0
  {
    MinReal((doorOpenDuration + stateTime) / totalDoorTravelDuration, 1.0)
  }

  /** The arrival test of updateDoorsSliding as written: the doors are at or behind the target. */
  predicate DoorsArrivedAsWritten(stateTime: real, doorOpenDuration: real, totalDoorTravelDuration: real)
    requires totalDoorTravelDuration > 0.0
  {
    DoorZ(SlideProgress(stateTime, doorOpenDuration, totalDoorTravelDuration)) <= DoorTargetZ + DoorArrivalTolerance
  }

  /**
   * The doors travel from DoorBaseZ up to DoorTargetZ and never pass it, so the test as written
   * holds at every instant of the sliding phase, from its first tick on.
   */
  lemma DoorsAlwaysArrivedAsWritten(stateTime: real, doorOpenDuration: real, totalDoorTravelDuration: real)
    requires totalDoorTravelDuration > 0.0
    ensures DoorsArrivedAsWritten(stateTime, doorOpenDuration, totalDoorTravelDuration)
  {
  }

  /**
   * On the very first tick of the sliding phase, with the base durations, the test as written
   * already reports arrival while the doors are still more than 9 units short of the target.
   */
  lemma DoorsArrivedAsWrittenTooEarly()
    ensures var total := BaseDoorOpenDuration + BaseDoorSlideDuration;
      && DoorsArrivedAsWritten(0.0, BaseDoorOpenDuration, total)
      && DoorZ(SlideProgress(0.0, BaseDoorOpenDuration, total)) < DoorTargetZ - 9.0
  {
    var total := BaseDoorOpenDuration + BaseDoorSlideDuration;
    assert SlideProgress(0.0, BaseDoorOpenDuration, total) == 0.6;
  }

  /** The arrival test the controller uses: the doors are within the tolerance of the target. */
  predicate DoorsArrived(stateTime: real, doorOpenDuration: real, totalDoorTravelDuration: real)
    requires totalDoorTravelDuration > 0.0
  {
    DoorZ(SlideProgress(stateTime, doorOpenDuration, totalDoorTravelDuration)) >= DoorTargetZ - DoorArrivalTolerance
  }

  /**
   * With the corrected test the doors arrive once the slide duration has all but elapsed (up to the
   * tolerance, 1/2380 of the door travel time), and not before.
   */
  lemma DoorsArriveAfterSlide(stateTime: real, doorOpenDuration: real, doorSlideDuration: real)
    requires doorOpenDuration > 0.0 && doorSlideDuration > 0.0
    ensures var total := doorOpenDuration + doorSlideDuration;
      DoorsArrived(stateTime, doorOpenDuration, total) <==> stateTime >= doorSlideDuration - total / 2380.0
  {
    var total := doorOpenDuration + doorSlideDuration;
    var q := (doorOpenDuration + stateTime) / total;
    DivCompare(doorOpenDuration + stateTime, total, 2379.0 / 2380.0);
  }

  // ---- The phase machine ----

  /** The phases a single tick may move to: one step along the segment sequence, or none. */
  predicate TickMayMove(from: Phase, to: Phase)
  {
    from == to ||
    match from
    case PreOpen => to == DoorsOpening
    case DoorsOpening => to == DoorsSliding
    case DoorsSliding => to == Running
    case Running => to == Result || to == Ended
    case Result => to == AwaitChoice || to == Ended
    case _ => false
  }

  predicate InSegment(p: Phase)
  {
    p == AwaitChoice || p == PreOpen || p == DoorsOpening || p == DoorsSliding || p == Running
  }

  /** The lane a digit key '1', '2' or '3' selects. */
  function DigitLane(key: string): (lane: int)
    requires key == "1" || key == "2" || key == "3"
    ensures 0 <= lane < PlayerLanes
    ensures key == "1" ==> lane == 0
    ensures key == "2" ==> lane == 1
    ensures key == "3" ==> lane == 2
  {
    (key[0] as int) - ('1' as int)
  }

  class Controller {
    var game: BrowserRules.Game?
    var state: Phase
    var stateTime: real
    var chosen: bool
    var choiceResolved: bool
    var playerLane: int
    var doorOpenDuration: real
    var doorSlideDuration: real
    var totalDoorTravelDuration: real
    var runDuration: real
    var passDuration: real
    /** Segments started by the current game. */
    ghost var segments: nat

    /** What holds in every phase. */
    ghost predicate Consistent()
      reads this`game, this`state, this`chosen, this`choiceResolved, this`playerLane, this`segments
      reads this`doorOpenDuration, this`doorSlideDuration, this`totalDoorTravelDuration
      reads this`runDuration, this`passDuration, game
    {
      && 0 <= playerLane < PlayerLanes
      && 0.7 * BaseDoorOpenDuration <= doorOpenDuration <= BaseDoorOpenDuration
      && 0.7 * BaseDoorSlideDuration <= doorSlideDuration <= BaseDoorSlideDuration
      && totalDoorTravelDuration == doorOpenDuration + doorSlideDuration
      && 2.1 <= runDuration <= BaseRunDuration
      && 0.0 <= passDuration
      && (game != null ==>
            && game.Valid()
            && game.lanes == BrowserRules.DefaultLanes
            && game.maxCheckpoints == BrowserRules.DefaultMaxCheckpoints
            && game.checkpointPrizePence == BrowserRules.DefaultCheckpointPrizePence)
    }

    /** What each phase implies about the engine and the latch. */
    ghost predicate PhaseOk()
      reads this`game, this`state, this`chosen, this`choiceResolved, this`playerLane, this`segments
      reads this`doorOpenDuration, this`doorSlideDuration, this`totalDoorTravelDuration
      reads this`runDuration, this`passDuration, game
    {
      && (state == Idle <==> game == null)
      && (state == Idle ==> segments == 0)
      && (InSegment(state) ==>
            game != null && game.awaitingChoice && !choiceResolved && |game.history| + 1 == segments)
      && (state == AwaitChoice ==> !chosen)
      && (InSegment(state) && state != AwaitChoice ==> chosen)
      && (state == Result ==>
            && game != null && choiceResolved && !game.awaitingChoice
            && |game.history| == segments && |game.history| > 0
            && !BrowserRules.EndedByHit(game.history))
      && (state == Ended ==> game != null && game.over && |game.history| == segments)
    }

    ghost predicate Valid()
      reads this, game
    {
      Consistent() && PhaseOk() && 0.0 <= stateTime
    }

    /** The run and door durations are those the difficulty ramp gives for the game's progress. */
    ghost predicate Ramped()
      reads this, game
    {
      && game != null && game.currentCheckpoint >= 0 && game.maxCheckpoints > 0
      && var p := Progress(game.currentCheckpoint, game.maxCheckpoints);
         && runDuration == RunDurationAt(p)
         && doorOpenDuration == DoorOpenDurationAt(p)
         && doorSlideDuration == DoorSlideDurationAt(p)
         && totalDoorTravelDuration == doorOpenDuration + doorSlideDuration
    }

    /**
     * A segment has just begun: its obstacle lanes are the ones the engine draws from `draws`,
     * the durations are ramped, nothing is chosen or resolved yet and the controller waits for a
     * choice.
     */
    ghost predicate SegmentBegun(draws: seq<real>)
      reads this, game
    {
      && game != null && game.lanes >= 1 && BrowserRules.AllUnitDraws(draws)
      && game.pendingObstacleLanes
         == Some(BrowserRules.Sample(draws, game.lanes, BrowserRules.ObstacleCount(game.currentCheckpoint, game.lanes), []))
      && Ramped()
      && state == AwaitChoice && stateTime == 0.0 && !chosen && !choiceResolved
    }

    /**
     * The segment has been resolved on top of the history `h0` against the obstacle lanes
     * `hitLanes`: one result for the player's lane, safe iff that lane is not an obstacle lane,
     * and a safe result leads to result, a hit to ended.
     */
    ghost predicate ResolvedAgainst(h0: seq<BrowserRules.CheckpointResult>, hitLanes: seq<int>)
      reads this`state, this`playerLane, this`game, game
    {
      && game != null
      && |game.history| == |h0| + 1
      && game.history[..|h0|] == h0
      && var res := game.history[|h0|];
         && res.chosenLane == playerLane
         && (res.safe <==> playerLane !in hitLanes)
         && state == (if res.safe then Result else Ended)
    }

    constructor ()
      ensures Valid()
      ensures game == null && state == Idle && stateTime == 0.0 && playerLane == 1
      ensures !chosen && !choiceResolved
      ensures runDuration == BaseRunDuration && passDuration == BasePassDuration
      ensures doorOpenDuration == BaseDoorOpenDuration && doorSlideDuration == BaseDoorSlideDuration
    {
      game := null;
      state := Idle;
      stateTime := 0.0;
      chosen := false;
      choiceResolved := false;
      playerLane := 1;
      doorOpenDuration := BaseDoorOpenDuration;
      doorSlideDuration := BaseDoorSlideDuration;
      totalDoorTravelDuration := BaseDoorOpenDuration + BaseDoorSlideDuration;
      runDuration := BaseRunDuration;
      passDuration := BasePassDuration;
      segments := 0;
    }

    method SetState(newState: Phase)
      modifies this`state, this`stateTime
      ensures state == newState && stateTime == 0.0
    {
      state := newState;
      stateTime := 0.0;
    }

    /** Moves the player, ignoring lanes outside 0..2. */
    method SetPlayerLane(lane: int)
      modifies this`playerLane
      ensures playerLane == if 0 <= lane < PlayerLanes then lane else old(playerLane)
    {
      if lane < 0 || lane > 2 {
        return;
      }
      playerLane := lane;
    }

    method SelectLane(lane: int)
      requires Valid()
      modifies this`playerLane, this`chosen, this`state, this`stateTime
      ensures Valid()
      ensures old(state) != AwaitChoice ==> unchanged(this)
      ensures old(state) == AwaitChoice ==>
        && state == PreOpen && stateTime == 0.0 && chosen
        && playerLane == (if 0 <= lane < PlayerLanes then lane else old(playerLane))
    {
      if state != AwaitChoice {
        return;
      }
      SetPlayerLane(lane);
      chosen := true;
      SetState(PreOpen);
    }

    /** The lane buttons of the overlay. */
    method OnLaneSelect(lane: int)
      requires Valid()
      modifies this`playerLane, this`chosen, this`state, this`stateTime
      ensures Valid()
      ensures old(state) != AwaitChoice ==> unchanged(this)
      ensures old(state) == AwaitChoice ==>
        && state == PreOpen && stateTime == 0.0 && chosen
        && playerLane == (if 0 <= lane < PlayerLanes then lane else old(playerLane))
    {
      if state == AwaitChoice {
        SelectLane(lane);
      }
    }

    /** Keyboard input: arrows move the player, digit keys 1 to 3 commit to a lane. */
    method OnKey(key: string)
      requires Valid()
      modifies this`playerLane, this`chosen, this`state, this`stateTime
      ensures Valid()
      ensures old(game) == null || old(game.over) || old(state) != AwaitChoice ==> unchanged(this)
      ensures old(state) == AwaitChoice && (key == "1" || key == "2" || key == "3") ==>
        state == PreOpen && stateTime == 0.0 && chosen && playerLane == DigitLane(key)
      ensures old(state) == AwaitChoice && !(key == "1" || key == "2" || key == "3") ==>
        && state == AwaitChoice && stateTime == old(stateTime) && !chosen
        && playerLane == (if key == "ArrowLeft" && old(playerLane) > 0 then old(playerLane) - 1
                          else if key == "ArrowRight" && old(playerLane) < PlayerLanes - 1 then old(playerLane) + 1
                          else old(playerLane))
    {
      if game == null || game.over {
        return;
      }
      if state == AwaitChoice {
        if key == "ArrowLeft" {
          SetPlayerLane(playerLane - 1);
        } else if key == "ArrowRight" {
          SetPlayerLane(playerLane + 1);
        } else if key == "1" || key == "2" || key == "3" {
          SelectLane(DigitLane(key));
        }
      }
    }

    /** Sets the durations of the coming segment from the game's progress. */
    method ApplyDifficultyRamp()
      requires Consistent()
      modifies this`runDuration, this`doorOpenDuration, this`doorSlideDuration, this`totalDoorTravelDuration
      ensures Consistent()
      ensures old(game) == null ==> unchanged(this)
      ensures game != null ==> Ramped()
    {
      if game == null {
        return;
      }
      var progress := Progress(game.currentCheckpoint, game.maxCheckpoints);
      runDuration := RunDurationAt(progress);
      doorOpenDuration := DoorOpenDurationAt(progress);
      doorSlideDuration := DoorSlideDurationAt(progress);
      totalDoorTravelDuration := doorOpenDuration + doorSlideDuration;
    }

    method FinishGame()
      modifies this`state, this`stateTime
      ensures state == Ended && stateTime == 0.0
    {
      SetState(Ended);
    }

    /**
     * Ends the game if it is over; otherwise starts the next segment, resets the latch and waits
     * for a choice.
     */
    method BeginDoorsPhase(draws: seq<real>)
      requires Consistent() && 0.0 <= stateTime
      requires game == null ==> PhaseOk()
      requires game != null ==> !game.awaitingChoice && |game.history| == segments
      requires game != null && !game.over ==> game.DrawsSuffice(draws)
      modifies this`chosen, this`choiceResolved, this`state, this`stateTime, this`segments
      modifies this`runDuration, this`doorOpenDuration, this`doorSlideDuration, this`totalDoorTravelDuration
      modifies game
      ensures Valid()
      ensures old(game) == null ==> unchanged(this)
      ensures game != null && old(game.over) ==>
        && state == Ended && stateTime == 0.0 && unchanged(game)
        && chosen == old(chosen) && choiceResolved == old(choiceResolved) && segments == old(segments)
        && runDuration == old(runDuration) && doorOpenDuration == old(doorOpenDuration)
        && doorSlideDuration == old(doorSlideDuration) && totalDoorTravelDuration == old(totalDoorTravelDuration)
      ensures game != null && !old(game.over) ==>
        && SegmentBegun(draws)
        && game.history == old(game.history) && game.currentCheckpoint == old(game.currentCheckpoint)
        && segments == old(segments) + 1
    {
      if game == null {
        return;
      }
      if game.over {
        FinishGame();
        return;
      }
      StartNextSegment(draws);
    }

    /**
     * The segment part of beginDoorsPhase, on a game that is not over: draw the obstacle lanes,
     * apply the ramp, reset the latch and wait for a choice.
     */
    method StartNextSegment(draws: seq<real>)
      requires Consistent()
      requires game != null && !game.over && !game.awaitingChoice && |game.history| == segments
      requires game.DrawsSuffice(draws)
      modifies this`chosen, this`choiceResolved, this`state, this`stateTime, this`segments
      modifies this`runDuration, this`doorOpenDuration, this`doorSlideDuration, this`totalDoorTravelDuration
      modifies game
      ensures Valid()
      ensures SegmentBegun(draws)
      ensures game.history == old(game.history) && game.currentCheckpoint == old(game.currentCheckpoint)
      ensures segments == old(segments) + 1
    {
      var _ := game.StartSegment(draws);
      assert game.Valid() && game.awaitingChoice;
      ApplyDifficultyRamp();
      chosen := false;
      choiceResolved := false;
      SetState(AwaitChoice);
      segments := segments + 1;
    }

    /**
     * The start button: a fresh game with the default configuration, then its first segment. The
     * button is shown only before the first game; restarting reloads the page, which constructs a
     * new controller.
     */
    method OnStart(draws: seq<real>)
      requires Valid() && state == Idle
      requires BrowserRules.AllUnitDraws(draws) && draws != []
      modifies this`game, this`chosen, this`choiceResolved, this`state, this`stateTime, this`segments
      modifies this`runDuration, this`doorOpenDuration, this`doorSlideDuration, this`totalDoorTravelDuration
      ensures Valid() && fresh(game) && SegmentBegun(draws)
      ensures game.currentCheckpoint == 0 && game.prizePence == 0 && game.history == [] && !game.over
      ensures game.pendingObstacleLanes == Some([LaneOf(draws[0], BrowserRules.DefaultLanes)])
      ensures runDuration == BaseRunDuration && doorOpenDuration == BaseDoorOpenDuration
      ensures doorSlideDuration == BaseDoorSlideDuration
      ensures playerLane == old(playerLane) && passDuration == old(passDuration)
      ensures segments == 1
    {
      game := new BrowserRules.Game(BrowserRules.DefaultLanes, BrowserRules.DefaultMaxCheckpoints,
                                    BrowserRules.DefaultCheckpointPrizePence);
      segments := 0;
      assert BrowserRules.Sample(draws, 3, 1, []) == [LaneOf(draws[0], 3)];
      BeginDoorsPhase(draws);
    }

    /**
     * Scores the segment. The latch is never set while running (`PhaseOk`), so the latched case
     * mirrors the source's guard only; that a segment is scored at most once follows from
     * `PhaseOk`'s count of results against started segments.
     */
    method ResolveRun()
      requires Valid() && state == Running
      modifies this`choiceResolved, this`state, this`stateTime, game
      ensures Valid() && game == old(game)
      ensures old(choiceResolved) ==> unchanged(this) && unchanged(game)
      ensures !old(choiceResolved) ==>
        && choiceResolved
        && ResolvedAgainst(old(game.history), old(game.pendingObstacleLanes).value)
        && stateTime == 0.0 && segments == old(segments)
    {
      if choiceResolved {
        return;
      }
      choiceResolved := true;
      var result := game.ResolveChoice(playerLane);
      if result.Ok? && result.value.Some? {
        var res := result.value.value;
        assert game.history == old(game.history) + [res];
        if res.safe {
          SetState(Result);
        } else {
          FinishGame();
        }
      }
    }

    method ProceedAfterResult(draws: seq<real>)
      requires Valid() && state == Result
      requires !game.over ==> game.DrawsSuffice(draws)
      modifies this`chosen, this`choiceResolved, this`state, this`stateTime, this`segments
      modifies this`runDuration, this`doorOpenDuration, this`doorSlideDuration, this`totalDoorTravelDuration
      modifies game
      ensures Valid() && game.history == old(game.history)
      ensures old(game.over) ==> state == Ended && stateTime == 0.0 && unchanged(game)
      ensures !old(game.over) ==> SegmentBegun(draws) && segments == old(segments) + 1
    {
      BeginDoorsPhase(draws);
    }

    method UpdatePreOpen()
      requires Valid()
      modifies this`state, this`stateTime
      ensures Valid()
      ensures old(state) != PreOpen ==> unchanged(this)
      ensures old(state) == PreOpen ==>
        if old(stateTime) >= RevealDelay then state == DoorsOpening && stateTime == 0.0 else unchanged(this)
    {
      if state != PreOpen {
        return;
      }
      if stateTime >= RevealDelay {
        SetState(DoorsOpening);
      }
    }

    method UpdateDoorsOpening()
      requires Valid()
      modifies this`state, this`stateTime
      ensures Valid()
      ensures old(state) != DoorsOpening ==> unchanged(this)
      ensures old(state) == DoorsOpening ==>
        if old(stateTime) >= doorOpenDuration then state == DoorsSliding && stateTime == 0.0 else unchanged(this)
    {
      if state != DoorsOpening {
        return;
      }
      var raw := MinReal(stateTime / doorOpenDuration, 1.0);
      DivCompare(stateTime, doorOpenDuration, 1.0);
      if raw >= 1.0 {
        SetState(DoorsSliding);
      }
    }

    method UpdateDoorsSliding()
      requires Valid()
      modifies this`state, this`stateTime
      ensures Valid()
      ensures old(state) != DoorsSliding ==> unchanged(this)
      ensures old(state) == DoorsSliding ==>
        if DoorsArrived(old(stateTime), doorOpenDuration, totalDoorTravelDuration)
        then state == Running && stateTime == 0.0 else unchanged(this)
    {
      if state != DoorsSliding {
        return;
      }
      var arrived := DoorsArrived(stateTime, doorOpenDuration, totalDoorTravelDuration);
      if arrived {
        SetState(Running);
      }
    }

    /** The lanes the running phase tests the player against. */
    function HitLanes(): seq<int>
      reads this`game, game
      requires game != null
    {
      match game.pendingObstacleLanes
      case Some(ls) => ls
      case None => []
    }

    method UpdateRunning()
      requires Valid()
      modifies this`choiceResolved, this`state, this`stateTime, this`passDuration, game
      ensures Valid() && game == old(game)
      ensures old(state) != Running ==> unchanged(this) && (game != null ==> unchanged(game))
      ensures old(state) == Running ==>
        var e := RunStep(old(stateTime), runDuration, old(passDuration), old(playerLane in HitLanes()));
        && (e == NoEvent ==> unchanged(this) && unchanged(game))
        && (e == EarlyHit ==> state == Ended && passDuration == 0.0)
        && (e == PassedThrough ==> passDuration == old(passDuration))
        && (e != NoEvent ==> ResolvedAgainst(old(game.history), old(HitLanes())) && stateTime == 0.0)
    {
      if state != Running {
        return;
      }
      var obstructed := playerLane in HitLanes();
      var e := RunStep(stateTime, runDuration, passDuration, obstructed);
      if e == NoEvent {
        return;
      }
      if e == EarlyHit {
        passDuration := 0.0;
      }
      ResolveRun();
    }

    method UpdateResult(draws: seq<real>)
      requires Valid()
      requires state == Result && !game.over ==> game.DrawsSuffice(draws)
      modifies this`chosen, this`choiceResolved, this`state, this`stateTime, this`segments
      modifies this`runDuration, this`doorOpenDuration, this`doorSlideDuration, this`totalDoorTravelDuration
      modifies game
      ensures Valid()
      ensures game != null ==> game.history == old(game.history)
      ensures old(state) != Result || old(stateTime) < ResultPause ==>
        unchanged(this) && (game != null ==> unchanged(game))
      ensures old(state) == Result && old(stateTime) >= ResultPause ==>
        if old(game.over) then state == Ended && stateTime == 0.0 && unchanged(game)
        else SegmentBegun(draws)
    {
      if state != Result {
        return;
      }
      if stateTime >= ResultPause {
        ProceedAfterResult(draws);
      }
    }

    /** One animation frame once the tick is clamped: the phase clock moves to `t`, then the current phase updates (ended has no update). */
    method UpdatePhase(t: real, draws: seq<real>)
      requires Valid() && stateTime <= t
      requires state == Result && !game.over ==> game.DrawsSuffice(draws)
      modifies this`chosen, this`choiceResolved, this`state, this`stateTime, this`segments, this`passDuration
      modifies this`runDuration, this`doorOpenDuration, this`doorSlideDuration, this`totalDoorTravelDuration
      modifies game
      ensures Valid()
      ensures TickMayMove(old(state), state)
      ensures old(state) == Idle || old(state) == AwaitChoice || old(state) == Ended ==>
        state == old(state) && passDuration == old(passDuration) && (game != null ==> unchanged(game))
      ensures old(state) != Result ==>
        && runDuration == old(runDuration) && doorOpenDuration == old(doorOpenDuration)
        && doorSlideDuration == old(doorSlideDuration) && totalDoorTravelDuration == old(totalDoorTravelDuration)
      ensures state == old(state) ==> stateTime == t
      ensures state != old(state) ==> stateTime == 0.0
      ensures game != null ==>
        && old(game.history) <= game.history
        && |game.history| <= |old(game.history)| + 1
      ensures old(state) == PreOpen ==> (state == DoorsOpening <==> t >= RevealDelay)
      ensures old(state) == DoorsOpening ==> (state == DoorsSliding <==> t >= doorOpenDuration)
      ensures old(state) == DoorsSliding ==>
        (state == Running <==> DoorsArrived(t, doorOpenDuration, totalDoorTravelDuration))
      ensures old(state) == PreOpen || old(state) == DoorsOpening || old(state) == DoorsSliding ==>
        passDuration == old(passDuration) && (game != null ==> unchanged(game))
      ensures old(state) == Result ==> passDuration == old(passDuration) && game.history == old(game.history)
      ensures old(state) == Result && t < ResultPause ==>
        && unchanged(game)
        && runDuration == old(runDuration) && doorOpenDuration == old(doorOpenDuration)
        && doorSlideDuration == old(doorSlideDuration) && totalDoorTravelDuration == old(totalDoorTravelDuration)
      ensures old(state) == Running && RunStep(t, runDuration, old(passDuration), old(playerLane in HitLanes())) == NoEvent ==>
        unchanged(game)
      ensures old(state) == Running ==>
        passDuration == (if RunStep(t, runDuration, old(passDuration), old(playerLane in HitLanes())) == EarlyHit
                         then 0.0 else old(passDuration))
      ensures old(state) == Running ==>
        var e := RunStep(t, runDuration, old(passDuration), old(playerLane in HitLanes()));
        && (state != Running <==> e != NoEvent)
        && (e == EarlyHit ==> state == Ended)
        && (|game.history| == |old(game.history)| + 1 <==> e != NoEvent)
        && (e != NoEvent ==> ResolvedAgainst(old(game.history), old(HitLanes())))
      ensures old(state) == Result ==>
        && (state != Result <==> t >= ResultPause)
        && (state == Ended <==> t >= ResultPause && game.over)
        && (t >= ResultPause && !game.over ==> SegmentBegun(draws))
    {
      stateTime := t;
      match state {
        case PreOpen => UpdatePreOpen();
        case DoorsOpening => UpdateDoorsOpening();
        case DoorsSliding => UpdateDoorsSliding();
        case Running => UpdateRunning();
        case Result => UpdateResult(draws);
        case _ =>
      }
    }

    /** One animation frame: clamp the tick, advance the phase clock, run the current phase's update. */
    method Tick(rawDt: real, draws: seq<real>)
      requires Valid()
      requires rawDt >= 0.0
      requires state == Result && !game.over ==> game.DrawsSuffice(draws)
      modifies this`chosen, this`choiceResolved, this`state, this`stateTime, this`segments, this`passDuration
      modifies this`runDuration, this`doorOpenDuration, this`doorSlideDuration, this`totalDoorTravelDuration
      modifies game
      ensures Valid()
      ensures TickMayMove(old(state), state)
      ensures old(state) == Idle || old(state) == AwaitChoice || old(state) == Ended ==>
        state == old(state) && passDuration == old(passDuration) && (game != null ==> unchanged(game))
      ensures old(state) != Result ==>
        && runDuration == old(runDuration) && doorOpenDuration == old(doorOpenDuration)
        && doorSlideDuration == old(doorSlideDuration) && totalDoorTravelDuration == old(totalDoorTravelDuration)
      ensures state == old(state) ==> stateTime == old(stateTime) + ClampDt(rawDt)
      ensures state != old(state) ==> stateTime == 0.0
      ensures game != null ==>
        && old(game.history) <= game.history
        && |game.history| <= |old(game.history)| + 1
      ensures old(state) == PreOpen ==>
        (state == DoorsOpening <==> old(stateTime) + ClampDt(rawDt) >= RevealDelay)
      ensures old(state) == DoorsOpening ==>
        (state == DoorsSliding <==> old(stateTime) + ClampDt(rawDt) >= doorOpenDuration)
      ensures old(state) == DoorsSliding ==>
        (state == Running <==> DoorsArrived(old(stateTime) + ClampDt(rawDt), doorOpenDuration, totalDoorTravelDuration))
      ensures old(state) == PreOpen || old(state) == DoorsOpening || old(state) == DoorsSliding ==>
        passDuration == old(passDuration) && (game != null ==> unchanged(game))
      ensures old(state) == Result ==> passDuration == old(passDuration) && game.history == old(game.history)
      ensures old(state) == Result && old(stateTime) + ClampDt(rawDt) < ResultPause ==>
        && unchanged(game)
        && runDuration == old(runDuration) && doorOpenDuration == old(doorOpenDuration)
        && doorSlideDuration == old(doorSlideDuration) && totalDoorTravelDuration == old(totalDoorTravelDuration)
      ensures old(state) == Running && RunStep(old(stateTime) + ClampDt(rawDt), runDuration, old(passDuration), old(playerLane in HitLanes())) == NoEvent ==>
        unchanged(game)
      ensures old(state) == Running ==>
        passDuration == (if RunStep(old(stateTime) + ClampDt(rawDt), runDuration, old(passDuration), old(playerLane in HitLanes())) == EarlyHit
                         then 0.0 else old(passDuration))
      ensures old(state) == Running ==>
        var e := RunStep(old(stateTime) + ClampDt(rawDt), runDuration, old(passDuration), old(playerLane in HitLanes()));
        && (state != Running <==> e != NoEvent)
        && (e == EarlyHit ==> state == Ended)
        && (|game.history| == |old(game.history)| + 1 <==> e != NoEvent)
        && (e != NoEvent ==> ResolvedAgainst(old(game.history), old(HitLanes())))
      ensures old(state) == Result ==>
        && (state != Result <==> old(stateTime) + ClampDt(rawDt) >= ResultPause)
        && (state == Ended <==> old(stateTime) + ClampDt(rawDt) >= ResultPause && game.over)
        && (old(stateTime) + ClampDt(rawDt) >= ResultPause && !game.over ==> SegmentBegun(draws))
    {
      UpdatePhase(stateTime + ClampDt(rawDt), draws);
    }
  }
}
